=== FILE: README.md ===
# JFrog transfer thread tuner — decision core in Dafny

`tune-transfer-files.py` polls the Artifactory metrics endpoint. From the
Prometheus-style text it reads CPU, heap and database-connection figures, and
it raises or lowers the number of transfer threads with `jf rt
transfer-settings`. This project models the part of the script that makes
decisions:

- **`parse_metric`**, in `exposition.dfy`. It finds the first line that starts
  with a metric name, then looks backwards for the nearest `# TYPE` declaration
  of that name. It splits the line with Python's `strip().split()` and converts
  one field with `float()`. Python's `float()` is the parameter
  `parse: FloatParser`, a partial function `string -> Option<real>`.
- **Python string operations**, in `text.dfy`: `isspace`, `startswith`, `in`,
  `strip()`, `split()` and `" ".join`. The file also proves the facts about
  them that the parser relies on.
- **The cycle of `monitor_and_scale`**, in `controller.dfy`:
  - the missing-metric check;
  - the heap and connection ratios, including the `ZeroDivisionError` that the
    generic handler swallows;
  - the if/elif/else scaling decision.
- **`adjust_threads`**, also in `controller.dfy`. It clamps the request,
  changes nothing when the clamped target equals the held count, and adopts the
  target only when the command succeeds. The global `current_threads` is a
  value passed from one cycle to the next. The command is reduced to whether it
  succeeded.
- **`get_artifactory_config`**, in `artifactory_config.dfy`. Each setting is
  taken from the argument, then the environment variable, then the YAML file.
  An empty value passes on to the next source. Trailing slashes are stripped.

The parser, the controller and the configuration each have a properties
module next to them (`exposition_properties.dfy`, `controller_properties.dfy`,
`artifactory_config_properties.dfy`). The facts about the string operations
are lemmas inside `Text` itself.

Three behaviours of the code are easy to assume otherwise:

- **Prefix matching.** Matching is a raw prefix test with no
  identifier-boundary check, so a longer metric name can answer for a shorter
  one: see `ExpositionProperties.LongerMetricStandsIn`.
- **Branch priority.** Scale-up is tested before scale-down: see
  `ControllerProperties.ScaleUpTakesPriority`.
- **Configuration checks.** The script validates neither the threshold order
  nor the thread range. Those orderings appear only as hypotheses of lemmas,
  such as `ConditionsExclusive` and `RunFromStartStaysInRange`.

## Model

| member | source | states |
|---|---|---|
| Text.SplitStrip | tune-transfer-files/tune-transfer-files.py:98 | stripping a line before splitting it never changes its fields |
| Text.SplitGivesFields | tune-transfer-files/tune-transfer-files.py:92 | every field `split()` returns is non-empty and contains no whitespace |
| Text.FieldsContained | tune-transfer-files/tune-transfer-files.py:91-92 | every field `split()` returns occurs as a substring of its input |
| Text.SplitJoinSpace | tune-transfer-files/tune-transfer-files.py:98 | `split()` recovers exactly the fields that `" ".join` put together |
| Exposition.FirstMatch | tune-transfer-files/tune-transfer-files.py:87-88 | the forward scan returns a matching line with no matching line before it, or reports that no line matches |
| Exposition.NearestDeclaration | tune-transfer-files/tune-transfer-files.py:89-95 | the backward scan returns the nearest earlier line that declares the name, or reports that no earlier line does |
| Exposition.ValueIndex | tune-transfer-files/tune-transfer-files.py:102-108 | the value field is the second-to-last one, except that a two-field line takes the second field exactly when its type is `gauge` |
| Exposition.ExtractValue | tune-transfer-files/tune-transfer-files.py:97-110 | fewer than two fields give no value; otherwise the value is `float()` of the field chosen by the value-position rule, with fields counted on the unstripped line |
| Exposition.ParseMetric | tune-transfer-files/tune-transfer-files.py:87-112 | when no line matches, the result is no value |
| Exposition.ParseMetricReadsFirstMatch | tune-transfer-files/tune-transfer-files.py:83-112 | when some line matches, the result is the value of the first matching line, typed by the nearest declaration before it |
| Exposition.ParseMetricForward | tune-transfer-files/tune-transfer-files.py:83-112 | a single forward pass that remembers the last declaration seen computes the same result as the backward-search parser |
| ExpositionProperties.MatchIsPrefixTest | tune-transfer-files/tune-transfer-files.py:88 | a line matches exactly when it starts with the name; the label-block disjunct adds nothing |
| ExpositionProperties.LongerNameMatches | tune-transfer-files/tune-transfer-files.py:88 | a line of a longer metric whose name extends `name` matches `name` |
| ExpositionProperties.CommentNeverMatches | tune-transfer-files/tune-transfer-files.py:88 | a `#` line never matches a name that does not itself start with `#` |
| ExpositionProperties.DeclarationIsThirdField | tune-transfer-files/tune-transfer-files.py:91-93 | a line declares the name iff it starts with `# TYPE`, has at least four fields, and its third field is the name; the substring test is implied |
| ExpositionProperties.NearestDeclarationLooksBack | tune-transfer-files/tune-transfer-files.py:89-90 | the type search depends only on the lines before the matching line |
| ExpositionProperties.FirstMatchWins | tune-transfer-files/tune-transfer-files.py:87-110 | replacing everything after the first matching line leaves the result unchanged |
| ExpositionProperties.IrrelevantLineIgnored | tune-transfer-files/tune-transfer-files.py:87-95 | a leading line that neither matches nor declares the name can be dropped without changing the result |
| ExpositionProperties.TypeBeforeShift | tune-transfer-files/tune-transfer-files.py:89-95 | a leading line that declares nothing does not change the type found for any later line |
| ExpositionProperties.GaugeDeclaration | tune-transfer-files/tune-transfer-files.py:91-94 | `# TYPE name gauge` declares `name` with type `gauge` and is not itself a sample of `name` |
| ExpositionProperties.GaugeBareSample | tune-transfer-files/tune-transfer-files.py:102-104 | a bare `name value` line under a gauge declaration yields `float(value)` |
| ExpositionProperties.UndeclaredBareSampleReadsName | tune-transfer-files/tune-transfer-files.py:107-108 | without a declaration, a bare `name value` line converts the name itself |
| ExpositionProperties.TimestampedSample | tune-transfer-files/tune-transfer-files.py:105-108 | when a `first value timestamp` line (with `first` starting with the name) is the first matching line, it yields `float(value)` whatever declarations the earlier, non-matching lines hold, and never the timestamp |
| ExpositionProperties.LongerMetricStandsIn | tune-transfer-files/tune-transfer-files.py:88 | an exposition of one timestamped sample of a longer metric name yields that sample's value for the shorter name |
| ExpositionProperties.DuplicateSamplesFirstWins | tune-transfer-files/tune-transfer-files.py:87-110 | of two samples of the same name, the first one's value is returned |
| Controller.ReadSamples | tune-transfer-files/tune-transfer-files.py:158-173 | each of the ten samples is `parse_metric` of its own metric name on the same text, including the system load and free heap shown in verbose mode |
| Controller.DeriveRatios | tune-transfer-files/tune-transfer-files.py:175-183 | the cycle is skipped iff a required metric is absent; it ends with a division error iff a maximum is zero; otherwise each ratio times its maximum gives the used amount |
| Controller.Decide | tune-transfer-files/tune-transfer-files.py:235-244 | scale up iff every resource is idle; scale down iff not idle and some resource is saturated; otherwise hold |
| Controller.Clamp | tune-transfer-files/tune-transfer-files.py:120 | `max(lo, min(hi, n))` stays in `[lo, hi]` when `lo <= hi`, keeps an in-range `n`, and gives `lo` below the range and `hi` above it |
| Controller.AdjustThreads | tune-transfer-files/tune-transfer-files.py:118-133 | the target is the clamped request; a command runs iff the target differs from the held count; afterwards the held count is the target when the command succeeds and the old count when it fails |
| Controller.Act | tune-transfer-files/tune-transfer-files.py:235-244 | a hold decision changes nothing; a scale-up targets the clamped `current + step` and a scale-down the clamped `current - step`, each adopted only when the command succeeds; limits are preserved |
| Controller.Step | tune-transfer-files/tune-transfer-files.py:175-244 | missing metrics or a zero maximum skip the cycle with the matching reason and no change; otherwise the cycle acts on the derived ratios; any change needs all required metrics and a successful command; limits are preserved |
| Controller.StepAsWritten | tune-transfer-files/tune-transfer-files.py:185-233 | when not verbose, the cycle is `Step`; in verbose mode with derived ratios and an absent system load or free heap the cycle always ends with a display error; in no other case does it differ from `Step` |
| Controller.Observe | tune-transfer-files/tune-transfer-files.py:137-173 | a poll yields samples exactly when the fetch succeeded, and then they are the samples read from the fetched text |
| Controller.Poll | tune-transfer-files/tune-transfer-files.py:137-246 | a failed fetch changes nothing; a successful one runs `Step` on the samples; the thread count changes only after a successful command; limits are preserved |
| Controller.MonitorAndScale | tune-transfer-files/tune-transfer-files.py:135-246 | a failed fetch changes nothing; otherwise the cycle is `Step` on the samples read from the fetched text; the thread count changes only after a successful command; limits are preserved |
| Controller.Run | tune-transfer-files/tune-transfer-files.py:255-257 | polls whose fetch failed all leave the count unchanged |
| Controller.InitialThreads | tune-transfer-files/tune-transfer-files.py:253 | the loop starts inside a valid thread range |
| ControllerProperties.ScaleUpTakesPriority | tune-transfer-files/tune-transfer-files.py:235-242 | when both conditions hold, the loop scales up |
| ControllerProperties.ConditionsExclusive | tune-transfer-files/tune-transfer-files.py:235-242 | when each low mark is at or below its high mark, the scale-up and scale-down conditions never both hold |
| ControllerProperties.DeadBandHolds | tune-transfer-files/tune-transfer-files.py:235-244 | readings inside the dead band hold the thread count and run no command |
| ControllerProperties.ScaleUpNeverLowers | tune-transfer-files/tune-transfer-files.py:235-238 | from inside the limits, with a non-negative step, scaling up never lowers the count and raises it by at most one step |
| ControllerProperties.ScaleDownNeverRaises | tune-transfer-files/tune-transfer-files.py:239-242 | from inside the limits, with a non-negative step, scaling down never raises the count and lowers it by at most one step |
| ControllerProperties.ScaleDownAtFloorRunsNothing | tune-transfer-files/tune-transfer-files.py:120-123 | scaling down at the minimum leaves the count at the minimum and runs no command |
| ControllerProperties.ScaleUpAtCeilingRunsNothing | tune-transfer-files/tune-transfer-files.py:120-123 | scaling up at the maximum leaves the count at the maximum and runs no command |
| ControllerProperties.IdleServiceScalesUp | tune-transfer-files/tune-transfer-files.py:235-238 | idle readings at 128 threads request 192, which is adopted only when the command succeeds |
| ControllerProperties.BusyCpuScalesDown | tune-transfer-files/tune-transfer-files.py:239-242 | with the default configuration and a successful command, CPU at 0.90 moves 128 threads to 64 for any heap and connection readings whose maxima are non-zero |
| ControllerProperties.MissingRequiredMetricSkips | tune-transfer-files/tune-transfer-files.py:158-178 | an exposition lacking any one of the five required metrics skips the cycle and keeps the thread count |
| ControllerProperties.RequiredMetricsPresentDecides | tune-transfer-files/tune-transfer-files.py:158-183 | an exposition carrying all five required metrics with non-zero maxima is neither skipped nor treated as a failed fetch |
| ControllerProperties.StepDecides | tune-transfer-files/tune-transfer-files.py:175-244 | with the required metrics present and non-zero maxima, the cycle reaches the decision |
| ControllerProperties.ZeroDbMaxSkips | tune-transfer-files/tune-transfer-files.py:182 | a zero connection maximum ends the cycle with no change |
| ControllerProperties.RunStaysInRange | tune-transfer-files/tune-transfer-files.py:255-257 | a thread count that starts inside its limits stays inside them over any sequence of polls |
| ControllerProperties.RunSnoc | tune-transfer-files/tune-transfer-files.py:255-257 | one more poll acts on the count the earlier polls left: its cycle starts from their result, and its resulting count is the new held count |
| ControllerProperties.RunFromStartStaysInRange | tune-transfer-files/tune-transfer-files.py:253-257 | starting from the configured minimum, a valid range is never left |
| ControllerProperties.FailedCommandsKeepThreads | tune-transfer-files/tune-transfer-files.py:124-132 | if every command fails, the thread count never changes |
| ControllerProperties.VerboseMissingLoadBlocksScaling | tune-transfer-files/tune-transfer-files.py:192 | in verbose mode, an idle service without a system-load metric fails the display and is not scaled up, although `Step` would scale it up |
| ControllerProperties.StepIgnoresInformationalMetrics | tune-transfer-files/tune-transfer-files.py:175-183 | the cycle depends only on the five required metrics |
| ArtifactoryConfig.FirstNonEmpty | tune-transfer-files/tune-transfer-files.py:29-35 | the result is the first non-empty candidate: every candidate before it is missing or empty; there is none iff every candidate is missing or empty |
| ArtifactoryConfig.Resolve | tune-transfer-files/tune-transfer-files.py:29-35 | the `or` chain raises a missing-key error iff argument and environment are empty and the file lacks the key; otherwise it yields a non-empty value iff some source holds one, and then the first such value |
| ArtifactoryConfig.RStripSlash | tune-transfer-files/tune-transfer-files.py:41 | the result is a prefix of the input, does not end in `/`, and only slashes were removed |
| ArtifactoryConfig.GetArtifactoryConfig | tune-transfer-files/tune-transfer-files.py:27-43 | succeeds iff both settings resolve non-empty, with the first non-empty URL stripped of trailing slashes and the first non-empty token; the URL's missing-key error occurs exactly when its file key is consulted and absent; the token's exactly when the URL resolved and the token's file key is consulted and absent; the not-provided error exactly when both resolved but one is empty |
| ArtifactoryConfigProperties.ArgumentWins | tune-transfer-files/tune-transfer-files.py:28-35 | non-empty arguments win over the environment and the file |
| ArtifactoryConfigProperties.EmptyArgumentFallsThrough | tune-transfer-files/tune-transfer-files.py:29-30 | an empty argument counts as missing, so the environment variable is used |
| ArtifactoryConfigProperties.EmptyTokenRejected | tune-transfer-files/tune-transfer-files.py:37-38 | a token that is empty or null everywhere is rejected |
| ArtifactoryConfigProperties.NoTrailingSlash | tune-transfer-files/tune-transfer-files.py:40-43 | the returned URL never ends in `/` |
| ArtifactoryConfigProperties.RStripSlashIdempotent | tune-transfer-files/tune-transfer-files.py:41 | stripping twice removes nothing more |
| ArtifactoryConfigProperties.SlashOnlyUrlComesBackEmpty | tune-transfer-files/tune-transfer-files.py:37-41 | the emptiness check runs before stripping, so a URL of only slashes is accepted and returned empty |

## Left out

- `get_metrics` (lines 61-69) is left out because it is network I/O. A cycle receives the metric text already split into lines, or `None` when the fetch raised.
- `str.splitlines` (line 84) is left out: `ParseMetric` takes the list of lines.
- `fetch_metrics.py` is not part of this model. It is HTTP and file I/O, and its only logic repeats the argument and environment resolution of `get_artifactory_config`.
- The `jf rt transfer-settings` command (lines 126-129) is reduced to a success flag. A failure that is not `CalledProcessError`, such as a missing `bash`, reaches the generic handler instead. It leaves the thread count unchanged all the same.
- Verbose mode's metrics dump and timestamp sniffing (lines 141-155), `format_bytes` and `parse_timestamp` (lines 71-80), and the printed tables (lines 185-233) are left out. The one exception is the `TypeError` that an absent system load or free heap raises while printing; `StepAsWritten` models it.
- `MonitorAndScale` has no verbose flag. It uses the corrected `Step`, and `StepAsWritten` records the verbose behaviour as written.
- Floating point is left out. Metric values and thresholds are `real`, so there is no rounding, NaN or infinity. Python's `float()` grammar is the `parse` parameter.
- YAML loading, `argparse`, the `while True` / `time.sleep` loop and the log printing are left out. `Run` replaces the loop with a finite sequence of polls. Each poll is given by what `Observe` returns for it (the samples, or nothing when the fetch failed) and by whether the command would succeed.
- `ArtifactoryConfig.Resolve` models the YAML value of a key as absent, null or a string. Other YAML scalars (numbers, booleans) are not modelled. A missing `artifactory` section raises the same `KeyError` as a missing key, and both are `KeyMissing`.
- `Text.IsSpace` follows `str.isspace()`, but the model has no Unicode normalisation or case folding.

## Findings

| source | as written | input that shows it | evidently intended | confidence | as-written member | corrected member |
|---|---|---|---|---|---|---|
| tune-transfer-files/tune-transfer-files.py:192 | In verbose mode the tables are printed before the decision. They format `system_load` with `:.2f` and pass `heap_free` to `format_bytes`, which compares it with `1024.0`. Either raises `TypeError` when the metric is absent, and the generic handler ends the cycle. | verbose run, 128 threads, CPU 0.30, heap 1/2, connections 1/2, no `system_load_average_1m` line | the informational metrics only decorate the output, so the scaling decision is the same as without verbose output | medium, not executed | Controller.StepAsWritten, ControllerProperties.VerboseMissingLoadBlocksScaling | Controller.Step, ControllerProperties.StepIgnoresInformationalMetrics |

=== FILE: artifactory_config.dfy ===
/** `get_artifactory_config` (tune-transfer-files.py lines 27-43): the base URL
    and the access token each come from the command-line argument, else the
    environment variable, else the configuration file, where an empty or
    missing value passes to the next source. */
module ArtifactoryConfig {
  import opened Wrappers

  /** A key of the `artifactory` section of the loaded YAML file: missing,
      present with a null value, or present with a string. */
  datatype Entry = Absent | Null | Text(s: string)

  /** Where one setting can come from, in priority order: the argument and the
      environment variable are `None` when not given. */
  datatype Sources = Sources(argument: Option<string>, environment: Option<string>, file: Entry)

  datatype Endpoint = Endpoint(baseUrl: string, token: string)

  /** `KeyError` from indexing the file's section; `ValueError` when a setting
      resolved to nothing. */
  datatype ConfigError = KeyMissing(key: string) | NotProvided

  const BaseUrlKey: string := "base_url"
  const TokenKey: string := "access_token"

  /** Python truthiness of an optional string. */
  predicate Truthy(v: Option<string>) {
    v.Some? && |v.value| > 0
  }

  function FileValue(e: Entry): Option<string> {
    match e
    case Text(s) => Some(s)
    case _ => None
  }

  function Candidates(src: Sources): seq<Option<string>> {
    [src.argument, src.environment, FileValue(src.file)]
  }

  /** The first non-empty candidate, if any. */
  function FirstNonEmpty(cands: seq<Option<string>>): (r: Option<string>)
    ensures r.Some? ==> Truthy(r) && r in cands
    ensures r.None? <==> forall k | 0 <= k < |cands| :: !Truthy(cands[k])
    ensures r.Some? ==> exists i | 0 <= i < |cands| :: cands[i] == r && forall k | 0 <= k < i :: !Truthy(cands[k])
  {
    if |cands| == 0 then None
    else if Truthy(cands[0]) then cands[0]
    else FirstNonEmpty(cands[1..])
  }

  /** `argument or environment or config['artifactory'][key]`: the first truthy
      operand, else the file's value, whose key is looked up only then. */
  function Resolve(src: Sources, key: string): (r: Result<Option<string>, ConfigError>)
    ensures r.Failure? <==> !Truthy(src.argument) && !Truthy(src.environment) && src.file == Absent
    ensures r.Failure? ==> r.error == KeyMissing(key)
    ensures r.Success? ==> (Truthy(r.value) <==> FirstNonEmpty(Candidates(src)).Some?)
    ensures r.Success? && Truthy(r.value) ==> r.value == FirstNonEmpty(Candidates(src))
  {
    if Truthy(src.argument) then Success(src.argument)
    else if Truthy(src.environment) then Success(src.environment)
    else
      match src.file
      case Absent => Failure(KeyMissing(key))
      case Null => Success(None)
      case Text(s) => Success(Some(s))
  }

  /** `s.rstrip('/')`: every trailing slash removed. */
  function RStripSlash(s: string): (r: string)
    ensures |r| <= |s| && r == s[..|r|]
    ensures r == [] || r[|r| - 1] != '/'
    ensures forall k | |r| <= k < |s| :: s[k] == '/'
    decreases |s|
  {
    if |s| > 0 && s[|s| - 1] == '/' then RStripSlash(s[..|s| - 1]) else s
  }

  /** The URL is resolved completely (a missing file key raises at once) before
      the token; both must be non-empty; then the URL loses its trailing slashes. */
  function GetArtifactoryConfig(url: Sources, token: Sources): (r: Result<Endpoint, ConfigError>)
    ensures r.Success? <==> FirstNonEmpty(Candidates(url)).Some? && FirstNonEmpty(Candidates(token)).Some?
    ensures r.Success? ==> r.value.baseUrl == RStripSlash(FirstNonEmpty(Candidates(url)).value)
    ensures r.Success? ==> r.value.token == FirstNonEmpty(Candidates(token)).value
    ensures r == Failure(KeyMissing(BaseUrlKey)) <==>
      !Truthy(url.argument) && !Truthy(url.environment) && url.file == Absent
    ensures r == Failure(KeyMissing(TokenKey)) <==>
      Resolve(url, BaseUrlKey).Success? && Resolve(token, TokenKey).Failure?
    ensures r == Failure(NotProvided) <==>
      && Resolve(url, BaseUrlKey).Success? && Resolve(token, TokenKey).Success?
      && !(FirstNonEmpty(Candidates(url)).Some? && FirstNonEmpty(Candidates(token)).Some?)
  {
    var u :- Resolve(url, BaseUrlKey);
    var t :- Resolve(token, TokenKey);
    if !Truthy(u) || !Truthy(t) then Failure(NotProvided)
    else Success(Endpoint(RStripSlash(u.value), t.value))
  }
}

=== FILE: artifactory_config_properties.dfy ===
/** Properties of `get_artifactory_config`: source priority, the error cases,
    and the shape of the returned URL. */
module ArtifactoryConfigProperties {
  import opened Wrappers
  import opened ArtifactoryConfig

  /** A non-empty argument wins over the environment and the file, and a file
      without the key is then never consulted. */
  lemma ArgumentWins(url: Sources, token: Sources)
    requires Truthy(url.argument) && Truthy(token.argument)
    ensures GetArtifactoryConfig(url, token)
         == Success(Endpoint(RStripSlash(url.argument.value), token.argument.value))
  {
  }

  /** An empty argument counts as missing: the environment variable is used. */
  lemma EmptyArgumentFallsThrough(url: Sources, token: Sources)
    requires url.argument == Some("") && Truthy(url.environment) && Truthy(token.environment)
    requires !Truthy(token.argument)
    ensures GetArtifactoryConfig(url, token)
         == Success(Endpoint(RStripSlash(url.environment.value), token.environment.value))
  {
  }

  /** A token that is empty everywhere is rejected even when the URL resolves. */
  lemma EmptyTokenRejected(url: Sources, token: Sources)
    requires Truthy(url.argument)
    requires !Truthy(token.argument) && !Truthy(token.environment)
    requires token.file == Null || token.file == Text("")
    ensures GetArtifactoryConfig(url, token) == Failure(NotProvided)
  {
  }

  /** The returned URL never ends in a slash. */
  lemma NoTrailingSlash(url: Sources, token: Sources)
    requires GetArtifactoryConfig(url, token).Success?
    ensures var u := GetArtifactoryConfig(url, token).value.baseUrl;
      |u| == 0 || u[|u| - 1] != '/'
  {
  }

  /** Stripping twice strips nothing more. */
  lemma RStripSlashIdempotent(s: string)
    ensures RStripSlash(RStripSlash(s)) == RStripSlash(s)
  {
  }

  /** The emptiness check runs before the slashes are stripped, so a URL made
      only of slashes is accepted and comes back empty. */
  lemma SlashOnlyUrlComesBackEmpty(token: string)
    requires |token| > 0
    ensures GetArtifactoryConfig(Sources(Some("//"), None, Absent), Sources(Some(token), None, Absent))
         == Success(Endpoint("", token))
  {
    assert RStripSlash("//") == RStripSlash("/") == RStripSlash("") == "";
  }
}

=== FILE: controller.dfy ===
/** The thread tuner's decision core (tune-transfer-files.py): the
    missing-metric check and the ratios of `monitor_and_scale`, its three-way
    scaling decision, `adjust_threads`, and the cycle that threads the held
    `current_threads` value from one poll to the next.

    The actuation command is reduced to whether it succeeded; fetching the
    metrics text is reduced to the lines it yields, or `None` when it failed. */
module Controller {
  import opened Wrappers
  import opened Exposition

  /** `config['thresholds']`: low/high marks for CPU and heap, and the high mark
      for database connections (the only one the loop reads). */
  datatype Thresholds = Thresholds(cpuLow: real, cpuHigh: real, heapLow: real, heapHigh: real, dbHigh: real)

  /** `config['threads']` */
  datatype ThreadLimits = ThreadLimits(min: int, max: int, step: int)

  datatype Config = Config(thresholds: Thresholds, threads: ThreadLimits)

  /** The module-level constants of the script.  The loop itself reads the
      loaded configuration, never these; they serve as a typical configuration. */
  const Defaults: Config := Config(Thresholds(0.40, 0.85, 0.60, 0.85, 0.90), ThreadLimits(8, 1024, 64))

  const CpuUsageName: string := "process_cpu_usage"
  const SystemLoadName: string := "system_load_average_1m"
  const HeapUsedName: string := "jfrt_runtime_heap_totalmemory_bytes"
  const HeapMaxName: string := "jfrt_runtime_heap_maxmemory_bytes"
  const HeapFreeName: string := "jfrt_runtime_heap_freememory_bytes"
  const DbActiveName: string := "jfrt_db_connections_active_total"
  const DbMaxName: string := "jfrt_db_connections_max_active_total"
  const DbIdleName: string := "jfrt_db_connections_idle_total"
  const LiveThreadsName: string := "jvm_threads_live_threads"
  const DaemonThreadsName: string := "jvm_threads_daemon_threads"

  /** Every value one cycle parses out of the exposition. */
  datatype Samples = Samples(
    cpu: Option<real>, systemLoad: Option<real>,
    heapUsed: Option<real>, heapMax: Option<real>, heapFree: Option<real>,
    dbActive: Option<real>, dbMax: Option<real>, dbIdle: Option<real>,
    liveThreads: Option<real>, daemonThreads: Option<real>)

  /** The five metrics the decision cannot do without, numbered from 0. */
  const RequiredCount: nat := 5

  function RequiredName(k: nat): string
    requires k < RequiredCount
  {
    if k == 0 then CpuUsageName
    else if k == 1 then HeapUsedName
    else if k == 2 then HeapMaxName
    else if k == 3 then DbActiveName
    else DbMaxName
  }

  /** The ten `parse_metric` calls of one cycle, each on the same text. */
  function ReadSamples(lines: seq<string>, parse: FloatParser): (s: Samples)
    ensures s.cpu == ParseMetric(lines, CpuUsageName, parse)
    ensures s.systemLoad == ParseMetric(lines, SystemLoadName, parse)
    ensures s.heapUsed == ParseMetric(lines, HeapUsedName, parse)
    ensures s.heapMax == ParseMetric(lines, HeapMaxName, parse)
    ensures s.heapFree == ParseMetric(lines, HeapFreeName, parse)
    ensures s.dbActive == ParseMetric(lines, DbActiveName, parse)
    ensures s.dbMax == ParseMetric(lines, DbMaxName, parse)
    ensures s.dbIdle == ParseMetric(lines, DbIdleName, parse)
    ensures s.liveThreads == ParseMetric(lines, LiveThreadsName, parse)
    ensures s.daemonThreads == ParseMetric(lines, DaemonThreadsName, parse)
  {
    Samples(
      ParseMetric(lines, CpuUsageName, parse), ParseMetric(lines, SystemLoadName, parse),
      ParseMetric(lines, HeapUsedName, parse), ParseMetric(lines, HeapMaxName, parse),
      ParseMetric(lines, HeapFreeName, parse),
      ParseMetric(lines, DbActiveName, parse), ParseMetric(lines, DbMaxName, parse),
      ParseMetric(lines, DbIdleName, parse),
      ParseMetric(lines, LiveThreadsName, parse), ParseMetric(lines, DaemonThreadsName, parse))
  }

  /** The five values the decision needs are all present. */
  predicate HasRequired(s: Samples) {
    s.cpu.Some? && s.heapUsed.Some? && s.heapMax.Some? && s.dbActive.Some? && s.dbMax.Some?
  }

  datatype Ratios = Ratios(cpu: real, heap: real, db: real)

  /** Why a cycle ends before deciding: a required metric is absent, or a
      maximum is zero and the division raises `ZeroDivisionError`, which the
      loop's generic handler swallows. */
  datatype SkipReason = MissingMetrics | DivisionByZero

  /** CPU usage as is; heap and database usage as fractions of their maxima. */
  function DeriveRatios(s: Samples): (r: Result<Ratios, SkipReason>)
    ensures r == Failure(MissingMetrics) <==> !HasRequired(s)
    ensures r == Failure(DivisionByZero) <==>
      HasRequired(s) && (s.heapMax.value == 0.0 || s.dbMax.value == 0.0)
    ensures r.Success? ==>
      && r.value.cpu == s.cpu.value
      && r.value.heap * s.heapMax.value == s.heapUsed.value
      && r.value.db * s.dbMax.value == s.dbActive.value
  {
    if !HasRequired(s) then Failure(MissingMetrics)
    else if s.heapMax.value == 0.0 || s.dbMax.value == 0.0 then Failure(DivisionByZero)
    else Success(Ratios(s.cpu.value, s.heapUsed.value / s.heapMax.value, s.dbActive.value / s.dbMax.value))
  }

  datatype Decision = ScaleUp | ScaleDown | Hold

  /** Every resource is comfortably idle: CPU and heap below their low marks and
      the connection pool below its high mark. */
  predicate UpCondition(r: Ratios, t: Thresholds) {
    r.cpu < t.cpuLow && r.heap < t.heapLow && r.db < t.dbHigh
  }

  /** Some resource is saturated: above its high mark. */
  predicate DownCondition(r: Ratios, t: Thresholds) {
    r.cpu > t.cpuHigh || r.heap > t.heapHigh || r.db > t.dbHigh
  }

  /** The if/elif/else of the loop: scale-up is tested first. */
  function Decide(r: Ratios, t: Thresholds): (d: Decision)
    ensures d == ScaleUp <==> UpCondition(r, t)
    ensures d == ScaleDown <==> !UpCondition(r, t) && DownCondition(r, t)
    ensures d == Hold <==> !UpCondition(r, t) && !DownCondition(r, t)
  {
    if UpCondition(r, t) then ScaleUp
    else if DownCondition(r, t) then ScaleDown
    else Hold
  }

  /** `max(lo, min(hi, n))` */
  function Clamp(n: int, lo: int, hi: int): (r: int)
    ensures lo <= hi ==> lo <= r <= hi
    ensures lo <= n <= hi ==> r == n
    ensures n < lo ==> r == lo
    ensures lo <= hi < n ==> r == hi
    ensures hi < lo ==> r == lo
  {
    var m := if hi < n then hi else n;
    if lo < m then m else lo
  }

  predicate InRange(limits: ThreadLimits, n: int) {
    limits.min <= n <= limits.max
  }

  /** How a cycle ended. */
  datatype Outcome =
    | FetchFailed
    | Skipped(reason: SkipReason)
    | DisplayFailed
    | Stable
    | Unchanged(target: int)
    | Applied(target: int)
    | ActuationFailed(target: int)

  /** The outcome of a cycle and the thread count held after it. */
  datatype Cycle = Cycle(outcome: Outcome, threads: int)

  predicate Actuated(o: Outcome) {
    o.Applied? || o.ActuationFailed?
  }

  /** `adjust_threads(requested)`: clamp into the limits; when that differs from
      the held count run the command, and adopt the target only if it succeeded. */
  function AdjustThreads(current: int, requested: int, limits: ThreadLimits, actuationOk: bool): (c: Cycle)
    ensures c.outcome.Unchanged? || Actuated(c.outcome)
    ensures c.outcome.target == Clamp(requested, limits.min, limits.max)
    ensures Actuated(c.outcome) <==> Clamp(requested, limits.min, limits.max) != current
    ensures c.threads != current ==> actuationOk && c.outcome == Applied(c.threads)
    ensures c.outcome.Applied? ==> actuationOk && c.threads == c.outcome.target
    ensures c.threads == if actuationOk then Clamp(requested, limits.min, limits.max) else current
    ensures limits.min <= limits.max ==> c.threads == current || InRange(limits, c.threads)
  {
    var target := Clamp(requested, limits.min, limits.max);
    if target == current then Cycle(Unchanged(target), current)
    else if actuationOk then Cycle(Applied(target), target)
    else Cycle(ActuationFailed(target), current)
  }

  /** What the cycle does once the ratios are known. */
  function Act(current: int, r: Ratios, cfg: Config, actuationOk: bool): (c: Cycle)
    ensures c.threads != current ==> actuationOk && c.outcome.Applied?
    ensures InRange(cfg.threads, current) ==> InRange(cfg.threads, c.threads)
    ensures Decide(r, cfg.thresholds) == Hold <==> c == Cycle(Stable, current)
    ensures Decide(r, cfg.thresholds) == ScaleUp ==>
      && (c.outcome.Unchanged? || Actuated(c.outcome))
      && c.outcome.target == Clamp(current + cfg.threads.step, cfg.threads.min, cfg.threads.max)
      && c.threads == if actuationOk then c.outcome.target else current
    ensures Decide(r, cfg.thresholds) == ScaleDown ==>
      && (c.outcome.Unchanged? || Actuated(c.outcome))
      && c.outcome.target == Clamp(current - cfg.threads.step, cfg.threads.min, cfg.threads.max)
      && c.threads == if actuationOk then c.outcome.target else current
  {
    match Decide(r, cfg.thresholds)
    case ScaleUp => AdjustThreads(current, current + cfg.threads.step, cfg.threads, actuationOk)
    case ScaleDown => AdjustThreads(current, current - cfg.threads.step, cfg.threads, actuationOk)
    case Hold => Cycle(Stable, current)
  }

  /** One cycle from the parsed samples onwards: skip on missing metrics or a
      zero maximum, otherwise decide and act.  Verbose display plays no part. */
  function Step(current: int, s: Samples, cfg: Config, actuationOk: bool): (c: Cycle)
    ensures !HasRequired(s) ==> c == Cycle(Skipped(MissingMetrics), current)
    ensures c.threads != current ==> actuationOk && HasRequired(s) && c.outcome.Applied?
    ensures InRange(cfg.threads, current) ==> InRange(cfg.threads, c.threads)
    ensures DeriveRatios(s).Failure? ==> c == Cycle(Skipped(DeriveRatios(s).error), current)
    ensures DeriveRatios(s).Success? ==> c == Act(current, DeriveRatios(s).value, cfg, actuationOk)
  {
    match DeriveRatios(s)
    case Failure(reason) => Cycle(Skipped(reason), current)
    case Success(r) => Act(current, r, cfg, actuationOk)
  }

  /** The cycle as the script runs it in verbose mode too: the metric tables are
      printed between the ratios and the decision, and formatting an absent
      system load (`{None:.2f}`) or heap-free value (`None < 1024.0` inside
      `format_bytes`) raises `TypeError`, which ends the cycle. */
  function StepAsWritten(current: int, s: Samples, cfg: Config, verbose: bool, actuationOk: bool): (c: Cycle)
    ensures !verbose ==> c == Step(current, s, cfg, actuationOk)
    ensures c != Step(current, s, cfg, actuationOk) ==>
      && verbose && DeriveRatios(s).Success? && (s.systemLoad.None? || s.heapFree.None?)
      && c == Cycle(DisplayFailed, current)
    ensures verbose && DeriveRatios(s).Success? && (s.systemLoad.None? || s.heapFree.None?) ==>
      c == Cycle(DisplayFailed, current)
  {
    match DeriveRatios(s)
    case Failure(reason) => Cycle(Skipped(reason), current)
    case Success(r) =>
      if verbose && (s.systemLoad.None? || s.heapFree.None?) then Cycle(DisplayFailed, current)
      else Act(current, r, cfg, actuationOk)
  }

  /** What a poll saw: the samples read from the fetched text, or `None` when
      the fetch raised. */
  function Observe(fetched: Option<seq<string>>, parse: FloatParser): (o: Option<Samples>)
    ensures o.None? <==> fetched.None?
    ensures fetched.Some? ==> o == Some(ReadSamples(fetched.value, parse))
  {
    match fetched
    case None => None
    case Some(lines) => Some(ReadSamples(lines, parse))
  }

  /** One cycle from what the poll saw. */
  function Poll(current: int, observed: Option<Samples>, cfg: Config, actuationOk: bool): (c: Cycle)
    ensures observed.None? ==> c == Cycle(FetchFailed, current)
    ensures observed.Some? ==> c == Step(current, observed.value, cfg, actuationOk)
    ensures c.threads != current ==> actuationOk && c.outcome.Applied?
    ensures InRange(cfg.threads, current) ==> InRange(cfg.threads, c.threads)
  {
    match observed
    case None => Cycle(FetchFailed, current)
    case Some(s) => Step(current, s, cfg, actuationOk)
  }

  /** `monitor_and_scale` from the fetched text (`None` when the fetch raised). */
  function MonitorAndScale(current: int, fetched: Option<seq<string>>, parse: FloatParser,
                           cfg: Config, actuationOk: bool): (c: Cycle)
    ensures fetched.None? ==> c == Cycle(FetchFailed, current)
    ensures fetched.Some? ==> c == Step(current, ReadSamples(fetched.value, parse), cfg, actuationOk)
    ensures c.threads != current ==> actuationOk && c.outcome.Applied?
    ensures InRange(cfg.threads, current) ==> InRange(cfg.threads, c.threads)
  {
    Poll(current, Observe(fetched, parse), cfg, actuationOk)
  }

  /** What one poll of the endless loop observes from outside: the samples
      parsed from the fetched text (`None` when the fetch raised) and whether
      the transfer-settings command would succeed. */
  datatype Tick = Tick(observed: Option<Samples>, actuationOk: bool)

  /** The thread count the loop holds after running the given polls. */
  function Run(current: int, ticks: seq<Tick>, cfg: Config): (n: int)
    ensures (forall k | 0 <= k < |ticks| :: ticks[k].observed.None?) ==> n == current
    decreases |ticks|
  {
    if |ticks| == 0 then current
    else
      var c := Poll(current, ticks[0].observed, cfg, ticks[0].actuationOk);
      Run(c.threads, ticks[1..], cfg)
  }

  /** The loop starts from the configured minimum. */
  function InitialThreads(cfg: Config): (n: int)
    ensures cfg.threads.min <= cfg.threads.max ==> InRange(cfg.threads, n)
  {
    cfg.threads.min
  }
}

=== FILE: controller_properties.dfy ===
/** Properties of the tuner's decision core: branch priority, the dead band,
    the direction of each scaling step, behaviour at the thread limits, a few
    worked scenarios, the bounds kept across any number of polls, and the
    verbose-mode defect. */
module ControllerProperties {
  import opened Wrappers
  import opened Exposition
  import opened Controller

  /** Scale-up is tested first: when both branches' conditions hold (possible
      only when a low mark is above its high mark), the loop scales up. */
  lemma ScaleUpTakesPriority(r: Ratios, t: Thresholds)
    requires UpCondition(r, t) && DownCondition(r, t)
    ensures Decide(r, t) == ScaleUp
  {
  }

  /** With each low mark at or below its high mark the two conditions exclude
      each other, so the order of the tests does not matter. */
  lemma ConditionsExclusive(r: Ratios, t: Thresholds)
    requires t.cpuLow <= t.cpuHigh && t.heapLow <= t.heapHigh
    ensures !(UpCondition(r, t) && DownCondition(r, t))
  {
  }

  /** Dead band: CPU and heap between their marks and connections at or below
      theirs hold the thread count, whatever it is. */
  lemma DeadBandHolds(current: int, r: Ratios, cfg: Config, actuationOk: bool)
    requires cfg.thresholds.cpuLow <= r.cpu <= cfg.thresholds.cpuHigh
    requires r.heap <= cfg.thresholds.heapHigh && r.db <= cfg.thresholds.dbHigh
    ensures Decide(r, cfg.thresholds) == Hold
    ensures Act(current, r, cfg, actuationOk) == Cycle(Stable, current)
  {
  }

  /** From inside the limits and with a non-negative step, scaling up never
      lowers the thread count, and it raises it by at most one step. */
  lemma ScaleUpNeverLowers(current: int, r: Ratios, cfg: Config, actuationOk: bool)
    requires InRange(cfg.threads, current) && cfg.threads.step >= 0
    requires Decide(r, cfg.thresholds) == ScaleUp
    ensures current <= Act(current, r, cfg, actuationOk).threads <= current + cfg.threads.step
  {
  }

  /** From inside the limits and with a non-negative step, scaling down never
      raises the thread count, and it lowers it by at most one step. */
  lemma ScaleDownNeverRaises(current: int, r: Ratios, cfg: Config, actuationOk: bool)
    requires InRange(cfg.threads, current) && cfg.threads.step >= 0
    requires Decide(r, cfg.thresholds) == ScaleDown
    ensures current - cfg.threads.step <= Act(current, r, cfg, actuationOk).threads <= current
  {
  }

  /** At the floor a scale-down request clamps back to the floor: no command is
      run, however often it repeats. */
  lemma ScaleDownAtFloorRunsNothing(r: Ratios, cfg: Config, actuationOk: bool)
    requires cfg.threads.min <= cfg.threads.max && cfg.threads.step >= 0
    requires Decide(r, cfg.thresholds) == ScaleDown
    ensures Act(cfg.threads.min, r, cfg, actuationOk) == Cycle(Unchanged(cfg.threads.min), cfg.threads.min)
  {
  }

  /** At the ceiling a scale-up request clamps back to the ceiling: no command is run. */
  lemma ScaleUpAtCeilingRunsNothing(r: Ratios, cfg: Config, actuationOk: bool)
    requires cfg.threads.min <= cfg.threads.max && cfg.threads.step >= 0
    requires Decide(r, cfg.thresholds) == ScaleUp
    ensures Act(cfg.threads.max, r, cfg, actuationOk) == Cycle(Unchanged(cfg.threads.max), cfg.threads.max)
  {
  }

  function SamplesOf(cpu: real, heapUsed: real, heapMax: real, dbActive: real, dbMax: real): Samples {
    Samples(Some(cpu), Some(1.0), Some(heapUsed), Some(heapMax), Some(1.0),
            Some(dbActive), Some(dbMax), None, None, None)
  }

  /** Idle service at 128 threads with the default marks: CPU 0.30, heap 0.50,
      connections 0.50 request 192 threads, adopted only when the command succeeds. */
  lemma IdleServiceScalesUp(actuationOk: bool)
    ensures Step(128, SamplesOf(0.30, 1.0, 2.0, 1.0, 2.0), Defaults, actuationOk)
         == if actuationOk then Cycle(Applied(192), 192) else Cycle(ActuationFailed(192), 128)
  {
    var s := SamplesOf(0.30, 1.0, 2.0, 1.0, 2.0);
    assert DeriveRatios(s) == Success(Ratios(0.30, 0.5, 0.5));
  }

  /** CPU at 0.90 above the default high mark of 0.85 scales 128 threads down to
      64, whatever the heap and connection readings are. */
  lemma BusyCpuScalesDown(heapUsed: real, heapMax: real, dbActive: real, dbMax: real)
    requires heapMax != 0.0 && dbMax != 0.0
    ensures Step(128, SamplesOf(0.90, heapUsed, heapMax, dbActive, dbMax), Defaults, true)
         == Cycle(Applied(64), 64)
  {
  }

  /** Whichever of the five required metrics the exposition lacks, the cycle is
      skipped and the thread count kept. */
  lemma MissingRequiredMetricSkips(current: int, lines: seq<string>, parse: FloatParser,
                                   cfg: Config, actuationOk: bool, k: nat)
    requires k < RequiredCount && ParseMetric(lines, RequiredName(k), parse) == None
    ensures MonitorAndScale(current, Some(lines), parse, cfg, actuationOk) == Cycle(Skipped(MissingMetrics), current)
  {
    var s := ReadSamples(lines, parse);
    if k == 0 { assert s.cpu.None?; }
    else if k == 1 { assert s.heapUsed.None?; }
    else if k == 2 { assert s.heapMax.None?; }
    else if k == 3 { assert s.dbActive.None?; }
    else { assert s.dbMax.None?; }
  }

  /** Conversely, when the exposition carries all five required metrics and
      neither maximum is zero, the cycle reaches the decision. */
  lemma RequiredMetricsPresentDecides(current: int, lines: seq<string>, parse: FloatParser,
                                      cfg: Config, actuationOk: bool)
    requires forall k | 0 <= k < RequiredCount :: ParseMetric(lines, RequiredName(k), parse).Some?
    requires ParseMetric(lines, HeapMaxName, parse) != Some(0.0)
    requires ParseMetric(lines, DbMaxName, parse) != Some(0.0)
    ensures var c := MonitorAndScale(current, Some(lines), parse, cfg, actuationOk);
      !c.outcome.FetchFailed? && !c.outcome.Skipped?
  {
    var s := ReadSamples(lines, parse);
    assert RequiredName(0) == CpuUsageName && RequiredName(1) == HeapUsedName;
    assert RequiredName(2) == HeapMaxName && RequiredName(3) == DbActiveName;
    assert RequiredName(4) == DbMaxName;
    assert HasRequired(s);
    StepDecides(current, s, cfg, actuationOk);
  }

  /** With the required metrics present and non-zero maxima, `Step` acts. */
  lemma StepDecides(current: int, s: Samples, cfg: Config, actuationOk: bool)
    requires HasRequired(s) && s.heapMax.value != 0.0 && s.dbMax.value != 0.0
    ensures var c := Step(current, s, cfg, actuationOk);
      !c.outcome.FetchFailed? && !c.outcome.Skipped?
  {
    var r := DeriveRatios(s).value;
    match Decide(r, cfg.thresholds)
    case Hold =>
    case ScaleUp =>
    case ScaleDown =>
  }

  /** A zero connection maximum ends the cycle through the generic handler. */
  lemma ZeroDbMaxSkips(current: int, s: Samples, cfg: Config, actuationOk: bool)
    requires HasRequired(s) && s.dbMax == Some(0.0)
    ensures Step(current, s, cfg, actuationOk) == Cycle(Skipped(DivisionByZero), current)
  {
  }

  /** Started inside its limits, the held thread count stays inside them over
      any sequence of polls. */
  lemma {:induction false} RunStaysInRange(current: int, ticks: seq<Tick>, cfg: Config)
    requires InRange(cfg.threads, current)
    ensures InRange(cfg.threads, Run(current, ticks, cfg))
    decreases |ticks|
  {
    if |ticks| > 0 {
      var c := Poll(current, ticks[0].observed, cfg, ticks[0].actuationOk);
      RunStaysInRange(c.threads, ticks[1..], cfg);
    }
  }

  /** Each poll acts on the count the earlier polls left: running one more
      poll after a sequence is that poll's cycle on the sequence's result. */
  lemma {:induction false} RunSnoc(current: int, ticks: seq<Tick>, t: Tick, cfg: Config)
    ensures Run(current, ticks + [t], cfg) == Poll(Run(current, ticks, cfg), t.observed, cfg, t.actuationOk).threads
    decreases |ticks|
  {
    if |ticks| > 0 {
      var c := Poll(current, ticks[0].observed, cfg, ticks[0].actuationOk);
      assert (ticks + [t])[1..] == ticks[1..] + [t];
      RunSnoc(c.threads, ticks[1..], t, cfg);
    } else {
      assert ([] + [t])[1..] == [];
    }
  }

  /** From the configured minimum, a valid thread range is never left. */
  lemma RunFromStartStaysInRange(ticks: seq<Tick>, cfg: Config)
    requires cfg.threads.min <= cfg.threads.max
    ensures InRange(cfg.threads, Run(InitialThreads(cfg), ticks, cfg))
  {
    RunStaysInRange(InitialThreads(cfg), ticks, cfg);
  }

  /** The held thread count changes only through a successful command: if every
      command fails, it never moves. */
  lemma {:induction false} FailedCommandsKeepThreads(current: int, ticks: seq<Tick>, cfg: Config)
    requires forall k | 0 <= k < |ticks| :: !ticks[k].actuationOk
    ensures Run(current, ticks, cfg) == current
    decreases |ticks|
  {
    if |ticks| > 0 {
      var c := Poll(current, ticks[0].observed, cfg, ticks[0].actuationOk);
      assert c.threads == current;
      forall k | 0 <= k < |ticks[1..]|
        ensures !ticks[1..][k].actuationOk
      {
        assert ticks[1..][k] == ticks[k + 1];
      }
      FailedCommandsKeepThreads(current, ticks[1..], cfg);
    }
  }

  /** Verbose mode as written: an idle service whose system load is not
      exported is never scaled up, because printing the absent load raises
      before the decision is reached. */
  lemma VerboseMissingLoadBlocksScaling()
    ensures var s := SamplesOf(0.30, 1.0, 2.0, 1.0, 2.0).(systemLoad := None);
      && StepAsWritten(128, s, Defaults, true, true) == Cycle(DisplayFailed, 128)
      && Step(128, s, Defaults, true) == Cycle(Applied(192), 192)
  {
    var s := SamplesOf(0.30, 1.0, 2.0, 1.0, 2.0).(systemLoad := None);
    assert DeriveRatios(s) == Success(Ratios(0.30, 0.5, 0.5));
  }

  /** The decision depends on the five required metrics only: the informational
      ones shown in verbose mode cannot change what a cycle does. */
  lemma StepIgnoresInformationalMetrics(current: int, s1: Samples, s2: Samples, cfg: Config, actuationOk: bool)
    requires s1.cpu == s2.cpu && s1.heapUsed == s2.heapUsed && s1.heapMax == s2.heapMax
    requires s1.dbActive == s2.dbActive && s1.dbMax == s2.dbMax
    ensures Step(current, s1, cfg, actuationOk) == Step(current, s2, cfg, actuationOk)
  {
  }
}

=== FILE: exposition.dfy ===
/** `parse_metric` (tune-transfer-files.py lines 83-112): reads one numeric sample
    out of a Prometheus-style text exposition, given as its list of lines.

    The function finds the first line that starts with the metric name, looks
    backwards from it for the nearest `# TYPE` declaration of exactly that name,
    splits the line into whitespace-separated fields and converts one of them
    with Python's `float()`.  Every failure is an absent value. */
module Exposition {
  import opened Wrappers
  import opened Text

  /** Python's `float()` applied to one field: `None` where it would raise
      `ValueError`.  Its grammar (exponents, `nan`, `inf`, underscores) is not
      modelled, so the parser takes it as a parameter. */
  type FloatParser = string -> Option<real>

  const TypeMarker: string := "# TYPE"
  const Gauge: string := "gauge"

  /** The sample-line test: `line.startswith(name) or line.startswith(name + "{")`. */
  predicate Matches(line: string, name: string) {
    StartsWith(line, name) || StartsWith(line, name + "{")
  }

  /** The declaration test of the backward search, clause by clause: the line
      starts with `# TYPE`, contains `name`, and its third field is `name`. */
  predicate DeclaresType(line: string, name: string) {
    && StartsWith(line, TypeMarker)
    && Contains(line, name)
    && var parts := Split(line);
       |parts| >= 4 && parts[2] == name
  }

  /** Line `i` is the first line, in document order, that matches `name`. */
  predicate IsFirstMatch(lines: seq<string>, name: string, i: int) {
    && 0 <= i < |lines|
    && Matches(lines[i], name)
    && forall k | 0 <= k < i :: !Matches(lines[k], name)
  }

  /** The forward scan for a matching line, starting at index `from`. */
  function FirstMatch(lines: seq<string>, name: string, from: nat): (r: Option<nat>)
    requires from <= |lines|
    ensures r.Some? ==> from <= r.value < |lines| && Matches(lines[r.value], name)
    ensures r.Some? ==> forall k | from <= k < r.value :: !Matches(lines[k], name)
    ensures r.None? ==> forall k | from <= k < |lines| :: !Matches(lines[k], name)
    decreases |lines| - from
  {
    if from == |lines| then None
    else if Matches(lines[from], name) then Some(from)
    else FirstMatch(lines, name, from + 1)
  }

  /** The backward scan from line `i - 1` down to line 0 for a declaration of `name`:
      the index of the nearest one. */
  function NearestDeclaration(lines: seq<string>, i: nat, name: string): (r: Option<nat>)
    requires i <= |lines|
    ensures r.Some? ==> r.value < i && DeclaresType(lines[r.value], name)
    ensures r.Some? ==> forall k | r.value < k < i :: !DeclaresType(lines[k], name)
    ensures r.None? ==> forall k | 0 <= k < i :: !DeclaresType(lines[k], name)
  {
    if i == 0 then None
    else if DeclaresType(lines[i - 1], name) then Some(i - 1)
    else NearestDeclaration(lines, i - 1, name)
  }

  /** `metric_type` as the search leaves it: the fourth field of the nearest
      declaration before line `i`, or `None`. */
  function TypeBefore(lines: seq<string>, i: nat, name: string): Option<string>
    requires i <= |lines|
  {
    match NearestDeclaration(lines, i, name)
    case None => None
    case Some(j) => Some(Split(lines[j])[3])
  }

  /** One more line of look-back: the nearest declaration before line `i + 1`
      is line `i` itself when it declares `name`, and otherwise the nearest one
      before line `i`. */
  lemma TypeBeforeStep(lines: seq<string>, i: nat, name: string)
    requires i < |lines|
    ensures DeclaresType(lines[i], name) ==> TypeBefore(lines, i + 1, name) == Some(Split(lines[i])[3])
    ensures !DeclaresType(lines[i], name) ==> TypeBefore(lines, i + 1, name) == TypeBefore(lines, i, name)
  {
    assert NearestDeclaration(lines, i + 1, name) ==
      if DeclaresType(lines[i], name) then Some(i) else NearestDeclaration(lines, i, name);
  }

  /** Which of `count` fields holds the value: the second for a two-field gauge
      line, the second-to-last otherwise. */
  function ValueIndex(count: nat, kind: Option<string>): (k: nat)
    requires count >= 2
    ensures k < count
    ensures count != 2 ==> k == count - 2
    ensures count == 2 ==> (k == 1 <==> kind == Some(Gauge))
  {
    if kind == Some(Gauge) then
      if count == 2 then 1 else count - 2
    else
      count - 2
  }

  /** The value of one sample line under the declared type `kind`:
      `line.strip().split()`, then `float()` of the selected field. */
  function ExtractValue(line: string, kind: Option<string>, parse: FloatParser): (r: Option<real>)
    ensures |Split(line)| < 2 ==> r == None
    ensures |Split(line)| >= 2 ==> r == parse(Split(line)[ValueIndex(|Split(line)|, kind)])
  {
    SplitStrip(line);
    var parts := Split(Strip(line));
    if |parts| < 2 then None
    else parse(parts[ValueIndex(|parts|, kind)])
  }

  /** The forward scan from the top stops at the first matching line. */
  lemma FirstMatchFindsFirst(lines: seq<string>, name: string)
    ensures forall i | IsFirstMatch(lines, name, i) :: FirstMatch(lines, name, 0) == Some(i)
  {
  }

  /** `parse_metric(metrics, name)` over `metrics.splitlines()`. */
  function ParseMetric(lines: seq<string>, name: string, parse: FloatParser): (r: Option<real>)
    ensures (forall k | 0 <= k < |lines| :: !Matches(lines[k], name)) ==> r == None
  {
    match FirstMatch(lines, name, 0)
    case None => None
    case Some(i) => ExtractValue(lines[i], TypeBefore(lines, i, name), parse)
  }

  /** When some line matches, the result is the value of the first matching
      line under the type declared nearest before it. */
  lemma ParseMetricReadsFirstMatch(lines: seq<string>, name: string, parse: FloatParser, i: nat)
    requires IsFirstMatch(lines, name, i)
    ensures ParseMetric(lines, name, parse) == ExtractValue(lines[i], TypeBefore(lines, i, name), parse)
  {
    FirstMatchFindsFirst(lines, name);
  }

  /** A single forward pass that remembers the last declaration of `name` seen
      so far, instead of searching backwards from the matching line.  It
      computes exactly what `ParseMetric` does. */
  method ParseMetricForward(lines: seq<string>, name: string, parse: FloatParser)
    returns (r: Option<real>)
    ensures r == ParseMetric(lines, name, parse)
  {
    var kind: Option<string> := None;
    var i := 0;
    assert TypeBefore(lines, 0, name) == None;
    while i < |lines|
      invariant 0 <= i <= |lines|
      invariant forall k | 0 <= k < i :: !Matches(lines[k], name)
      invariant kind == TypeBefore(lines, i, name)
    {
      if Matches(lines[i], name) {
        ParseMetricReadsFirstMatch(lines, name, parse, i);
        return ExtractValue(lines[i], kind, parse);
      }
      TypeBeforeStep(lines, i, name);
      if DeclaresType(lines[i], name) {
        kind := Some(Split(lines[i])[3]);
      }
      i := i + 1;
    }
    return None;
  }
}

=== FILE: exposition_properties.dfy ===
/** Properties of `parse_metric`: how a line is matched, which declaration gives
    its type, that only the first matching line counts, and the value-position
    rule worked through on small expositions. */
module ExpositionProperties {
  import opened Wrappers
  import opened Text
  import opened Exposition

  /** The label-block disjunct of the match test adds nothing: a line matches
      exactly when it starts with the name. */
  lemma MatchIsPrefixTest(line: string, name: string)
    ensures Matches(line, name) <==> StartsWith(line, name)
  {
    if StartsWith(line, name + "{") {
      assert line[..|name|] == line[..|name| + 1][..|name|];
      assert (name + "{")[..|name|] == name;
    }
  }

  /** A sample of a longer metric whose name begins with `name` matches `name`:
      there is no identifier-boundary check. */
  lemma LongerNameMatches(name: string, more: string, line: string)
    requires StartsWith(line, name + more)
    ensures Matches(line, name)
  {
    assert line[..|name|] == line[..|name + more|][..|name|];
    assert (name + more)[..|name|] == name;
  }

  /** Comment lines never match a name that does not itself start with `#`. */
  lemma CommentNeverMatches(line: string, name: string)
    requires |line| > 0 && line[0] == '#'
    requires |name| > 0 && name[0] != '#'
    ensures !Matches(line, name)
  {
    MatchIsPrefixTest(line, name);
  }

  /** The substring test `name in lines[j]` adds nothing: a declaration of `name`
      is a `# TYPE` line with at least four fields whose third field is `name`. */
  lemma DeclarationIsThirdField(line: string, name: string)
    ensures DeclaresType(line, name) <==>
      && StartsWith(line, TypeMarker)
      && |Split(line)| >= 4
      && Split(line)[2] == name
  {
    if |Split(line)| >= 4 {
      FieldsContained(line, 2);
    }
  }

  /** The type search looks only at lines before `i`, so lines from `i` on
      cannot change it. */
  lemma {:induction false} NearestDeclarationLooksBack(lines: seq<string>, other: seq<string>, i: nat, name: string)
    requires i <= |lines| && i <= |other|
    requires lines[..i] == other[..i]
    ensures NearestDeclaration(lines, i, name) == NearestDeclaration(other, i, name)
    decreases i
  {
    if i > 0 {
      assert lines[i - 1] == lines[..i][i - 1] == other[..i][i - 1] == other[i - 1];
      assert lines[..i - 1] == lines[..i][..i - 1];
      assert other[..i - 1] == other[..i][..i - 1];
      NearestDeclarationLooksBack(lines, other, i - 1, name);
    }
  }

  /** First match wins: whatever follows the first matching line — further
      samples of the same name, later declarations — never changes the result. */
  lemma FirstMatchWins(lines: seq<string>, rest: seq<string>, name: string, parse: FloatParser, i: nat)
    requires IsFirstMatch(lines, name, i)
    ensures ParseMetric(lines[..i + 1] + rest, name, parse) == ParseMetric(lines, name, parse)
  {
    var other := lines[..i + 1] + rest;
    assert other[..i] == lines[..i];
    assert forall k | 0 <= k <= i :: other[k] == lines[k];
    assert IsFirstMatch(other, name, i);
    ParseMetricReadsFirstMatch(other, name, parse, i);
    ParseMetricReadsFirstMatch(lines, name, parse, i);
    NearestDeclarationLooksBack(lines, other, i, name);
  }

  /** A line that matches no sample line and declares nothing can be dropped
      from the front without changing the result. */
  lemma IrrelevantLineIgnored(line: string, lines: seq<string>, name: string, parse: FloatParser)
    requires !Matches(line, name) && !DeclaresType(line, name)
    ensures ParseMetric([line] + lines, name, parse) == ParseMetric(lines, name, parse)
  {
    var all := [line] + lines;
    match FirstMatch(lines, name, 0)
    case None =>
      assert forall k | 0 <= k < |all| :: !Matches(all[k], name) by {
        forall k | 0 <= k < |all|
          ensures !Matches(all[k], name)
        {
          if k > 0 { assert all[k] == lines[k - 1]; }
        }
      }
    case Some(i) =>
      assert IsFirstMatch(all, name, i + 1) by {
        forall k | 0 <= k < i + 1
          ensures !Matches(all[k], name)
        {
          if k > 0 { assert all[k] == lines[k - 1]; }
        }
      }
      TypeBeforeShift(line, lines, i, name);
  }

  lemma {:induction false} TypeBeforeShift(line: string, lines: seq<string>, i: nat, name: string)
    requires i <= |lines| && !DeclaresType(line, name)
    ensures TypeBefore([line] + lines, i + 1, name) == TypeBefore(lines, i, name)
    decreases i
  {
    var all := [line] + lines;
    if i > 0 {
      assert all[i] == lines[i - 1];
      TypeBeforeShift(line, lines, i - 1, name);
    }
  }

  lemma SingleLineFirstMatch(line: string, name: string)
    requires Matches(line, name)
    ensures IsFirstMatch([line], name, 0)
    ensures TypeBefore([line], 0, name) == None
  {
  }

  /** `# TYPE name gauge` declares `name` a gauge and is not itself a sample of `name`. */
  lemma GaugeDeclaration(name: string)
    requires IsField(name) && name[0] != '#'
    ensures var decl := JoinSpace(["#", "TYPE", name, Gauge]);
      && DeclaresType(decl, name)
      && !Matches(decl, name)
      && Split(decl)[3] == Gauge
  {
    var decl := JoinSpace(["#", "TYPE", name, Gauge]);
    JoinSpaceCons(name, [Gauge]);
    assert ["TYPE", name, Gauge] == ["TYPE"] + [name, Gauge];
    JoinSpaceCons("TYPE", [name, Gauge]);
    assert ["#", "TYPE", name, Gauge] == ["#"] + ["TYPE", name, Gauge];
    JoinSpaceCons("#", ["TYPE", name, Gauge]);
    assert decl == "# TYPE " + (name + " " + Gauge);
    assert decl[..6] == TypeMarker;
    SplitJoinSpace(["#", "TYPE", name, Gauge]);
    DeclarationIsThirdField(decl, name);
    CommentNeverMatches(decl, name);
  }

  /** A bare `name value` sample under a gauge declaration reads `value`. */
  lemma GaugeBareSample(name: string, v: string, parse: FloatParser)
    requires IsField(name) && IsField(v) && name[0] != '#'
    ensures ParseMetric([JoinSpace(["#", "TYPE", name, Gauge]), JoinSpace([name, v])], name, parse) == parse(v)
  {
    var decl := JoinSpace(["#", "TYPE", name, Gauge]);
    var sample := JoinSpace([name, v]);
    var lines := [decl, sample];
    GaugeDeclaration(name);
    assert [name, v] == [name] + [v];
    JoinSpaceCons(name, [v]);
    assert sample == name + (" " + v);
    LongerNameMatches(name, "", sample);
    assert IsFirstMatch(lines, name, 1);
    ParseMetricReadsFirstMatch(lines, name, parse, 1);
    assert TypeBefore(lines, 1, name) == Some(Gauge);
    SplitJoinSpace([name, v]);
  }

  /** Without a gauge declaration, a bare `name value` sample converts the
      second-to-last field, which is the name itself. */
  lemma UndeclaredBareSampleReadsName(name: string, v: string, parse: FloatParser)
    requires IsField(name) && IsField(v)
    ensures ParseMetric([JoinSpace([name, v])], name, parse) == parse(name)
  {
    var sample := JoinSpace([name, v]);
    assert [name, v] == [name] + [v];
    JoinSpaceCons(name, [v]);
    assert sample == name + (" " + v);
    LongerNameMatches(name, "", sample);
    SingleLineFirstMatch(sample, name);
    ParseMetricReadsFirstMatch([sample], name, parse, 0);
    SplitJoinSpace([name, v]);
  }

  /** A timestamped sample `first value timestamp` whose first field starts with
      `name` reads `value` whatever declaration precedes it; the timestamp is
      never returned. */
  lemma TimestampedSample(pre: seq<string>, name: string, first: string, v: string, ts: string, parse: FloatParser)
    requires IsField(first) && IsField(v) && IsField(ts) && StartsWith(first, name)
    requires forall k | 0 <= k < |pre| :: !Matches(pre[k], name)
    ensures ParseMetric(pre + [JoinSpace([first, v, ts])], name, parse) == parse(v)
  {
    var sample := JoinSpace([first, v, ts]);
    var lines := pre + [sample];
    assert sample == first + (" " + JoinSpace([v, ts]));
    assert first == name + first[|name|..];
    LongerNameMatches(name, first[|name|..], sample);
    assert IsFirstMatch(lines, name, |pre|);
    ParseMetricReadsFirstMatch(lines, name, parse, |pre|);
    SplitJoinSpace([first, v, ts]);
  }

  /** The raw prefix test lets a longer metric stand in for `name`: a
      timestamped sample of `name + more` yields its value for `name`. */
  lemma LongerMetricStandsIn(name: string, more: string, v: string, ts: string, parse: FloatParser)
    requires IsField(name + more) && IsField(v) && IsField(ts)
    ensures ParseMetric([JoinSpace([name + more, v, ts])], name, parse) == parse(v)
  {
    assert (name + more)[..|name|] == name;
    TimestampedSample([], name, name + more, v, ts, parse);
    assert [] + [JoinSpace([name + more, v, ts])] == [JoinSpace([name + more, v, ts])];
  }

  /** Of two samples of the same name, the first one's value is returned. */
  lemma DuplicateSamplesFirstWins(name: string, v1: string, v2: string, ts: string, parse: FloatParser)
    requires IsField(name) && IsField(v1) && IsField(v2) && IsField(ts)
    ensures ParseMetric([JoinSpace([name, v1, ts]), JoinSpace([name, v2, ts])], name, parse) == parse(v1)
  {
    var first := JoinSpace([name, v1, ts]);
    var lines := [first, JoinSpace([name, v2, ts])];
    assert name[..|name|] == name;
    TimestampedSample([], name, name, v1, ts, parse);
    assert [] + [first] == [first];
    assert first == name + (" " + JoinSpace([v1, ts]));
    LongerNameMatches(name, "", first);
    assert IsFirstMatch([first], name, 0);
    FirstMatchWins([first], [lines[1]], name, parse, 0);
    assert [first][..1] + [lines[1]] == lines;
  }
}

=== FILE: text.dfy ===
/** The handful of Python string operations the tuner relies on: `str.isspace`,
    `str.startswith`, the `in` substring test, `str.strip()` and `str.split()`
    (both with no argument), `" ".join`, and the facts about them that the
    metric parser's proofs need. */
module Text {

  /** Python's `str.isspace()` set, which `split()` and `strip()` use when
      called without an argument. */
  predicate IsSpace(c: char) {
    var n := c as int;
    || (0x09 <= n <= 0x0D)
    || (0x1C <= n <= 0x20)
    || n == 0x85 || n == 0xA0 || n == 0x1680
    || (0x2000 <= n <= 0x200A)
    || n == 0x2028 || n == 0x2029 || n == 0x202F || n == 0x205F || n == 0x3000
  }

  /** `s.startswith(prefix)` */
  predicate StartsWith(s: string, prefix: string) {
    |prefix| <= |s| && s[..|prefix|] == prefix
  }

  /** `w` occurs in `s` starting at index `k`. */
  predicate OccursAt(s: string, w: string, k: int) {
    0 <= k && k + |w| <= |s| && s[k..k + |w|] == w
  }

  /** `w in s` for strings (the empty string occurs everywhere). */
  predicate Contains(s: string, w: string) {
    exists k | 0 <= k <= |s| :: OccursAt(s, w, k)
  }

  /** A field produced by `split()`: non-empty and free of whitespace. */
  predicate IsField(w: string) {
    |w| > 0 && forall k | 0 <= k < |w| :: !IsSpace(w[k])
  }

  /** The first index at or after `i` that holds whitespace (or `|s|`). */
  function SkipWord(s: string, i: nat): (j: nat)
    requires i <= |s|
    ensures i <= j <= |s|
    ensures i < |s| && !IsSpace(s[i]) ==> i < j
    decreases |s| - i
  {
    if i < |s| && !IsSpace(s[i]) then SkipWord(s, i + 1) else i
  }

  /** `s.lstrip()` */
  function TrimStart(s: string): string
    decreases |s|
  {
    if |s| > 0 && IsSpace(s[0]) then TrimStart(s[1..]) else s
  }

  /** `s.rstrip()` */
  function TrimEnd(s: string): string
    decreases |s|
  {
    if |s| > 0 && IsSpace(s[|s| - 1]) then TrimEnd(s[..|s| - 1]) else s
  }

  /** `s.strip()` */
  function Strip(s: string): string {
    TrimEnd(TrimStart(s))
  }

  /** `s.split()`: the maximal runs of non-whitespace characters, in order. */
  function Split(s: string): seq<string>
    decreases |s|
  {
    if |s| == 0 then []
    else if IsSpace(s[0]) then Split(s[1..])
    else
      var b := SkipWord(s, 0);
      [s[..b]] + Split(s[b..])
  }

  /** `" ".join(ws)` */
  function JoinSpace(ws: seq<string>): string
    decreases |ws|
  {
    if |ws| == 0 then ""
    else if |ws| == 1 then ws[0]
    else ws[0] + " " + JoinSpace(ws[1..])
  }

  lemma JoinSpaceCons(w: string, ws: seq<string>)
    ensures JoinSpace([w] + ws) == if |ws| == 0 then w else w + " " + JoinSpace(ws)
  {
    assert ([w] + ws)[1..] == ws;
  }

  /** `SkipWord` stops exactly at the first whitespace character. */
  lemma {:induction false} SkipWordStops(s: string, i: nat)
    requires i <= |s|
    ensures forall k | i <= k < SkipWord(s, i) :: !IsSpace(s[k])
    ensures SkipWord(s, i) == |s| || IsSpace(s[SkipWord(s, i)])
    decreases |s| - i
  {
    if i < |s| && !IsSpace(s[i]) {
      SkipWordStops(s, i + 1);
    }
  }

  /** Every field that `split()` returns is non-empty and free of whitespace. */
  lemma {:induction false} SplitGivesFields(s: string)
    ensures forall n | 0 <= n < |Split(s)| :: IsField(Split(s)[n])
    decreases |s|
  {
    if |s| > 0 {
      if IsSpace(s[0]) {
        SplitGivesFields(s[1..]);
      } else {
        var b := SkipWord(s, 0);
        SkipWordStops(s, 0);
        SplitGivesFields(s[b..]);
        assert IsField(s[..b]);
      }
    }
  }

  /** An occurrence in a suffix of `s` is an occurrence in `s`. */
  lemma OccursInSuffix(s: string, d: nat, w: string, k: int)
    requires d <= |s| && OccursAt(s[d..], w, k)
    ensures OccursAt(s, w, d + k)
  {
    assert s[d..][k..k + |w|] == s[d + k..d + k + |w|];
  }

  /** Where the `n`-th field of `s` sits in `s`. */
  lemma {:induction false} FieldPosition(s: string, n: nat) returns (k: nat)
    requires n < |Split(s)|
    ensures OccursAt(s, Split(s)[n], k)
    decreases |s|
  {
    if IsSpace(s[0]) {
      var k' := FieldPosition(s[1..], n);
      OccursInSuffix(s, 1, Split(s)[n], k');
      k := 1 + k';
    } else {
      var b := SkipWord(s, 0);
      if n == 0 {
        k := 0;
      } else {
        var k' := FieldPosition(s[b..], n - 1);
        OccursInSuffix(s, b, Split(s)[n], k');
        k := b + k';
      }
    }
  }

  /** Every field that `split()` returns is a substring of its input. */
  lemma FieldsContained(s: string, n: nat)
    requires n < |Split(s)|
    ensures Contains(s, Split(s)[n])
  {
    var k := FieldPosition(s, n);
  }

  /** Stripping leading whitespace never changes the fields. */
  lemma {:induction false} SplitTrimStart(s: string)
    ensures Split(TrimStart(s)) == Split(s)
    decreases |s|
  {
    if |s| > 0 && IsSpace(s[0]) {
      SplitTrimStart(s[1..]);
    }
  }

  /** A word that ends before a trailing character ends at the same place
      once that character is dropped. */
  lemma {:induction false} SkipWordDropLast(s: string, i: nat)
    requires i < |s| && IsSpace(s[|s| - 1])
    ensures SkipWord(s[..|s| - 1], i) == SkipWord(s, i)
    decreases |s| - i
  {
    if i < |s| - 1 && !IsSpace(s[i]) {
      SkipWordDropLast(s, i + 1);
    }
  }

  /** A trailing whitespace character never changes the fields. */
  lemma {:induction false} SplitDropLastSpace(s: string)
    requires |s| > 0 && IsSpace(s[|s| - 1])
    ensures Split(s[..|s| - 1]) == Split(s)
    decreases |s|
  {
    var m := s[..|s| - 1];
    if |s| == 1 {
      assert Split(s) == Split(s[1..]);
    } else if IsSpace(s[0]) {
      assert m[1..] == s[1..][..|s[1..]| - 1];
      SplitDropLastSpace(s[1..]);
    } else {
      var b := SkipWord(s, 0);
      SkipWordDropLast(s, 0);
      SkipWordStops(s, 0);
      assert b < |s|;
      assert m[..b] == s[..b];
      assert m[b..] == s[b..][..|s[b..]| - 1];
      SplitDropLastSpace(s[b..]);
    }
  }

  /** Stripping trailing whitespace never changes the fields. */
  lemma {:induction false} SplitTrimEnd(s: string)
    ensures Split(TrimEnd(s)) == Split(s)
    decreases |s|
  {
    if |s| > 0 && IsSpace(s[|s| - 1]) {
      SplitDropLastSpace(s);
      SplitTrimEnd(s[..|s| - 1]);
    }
  }

  /** `s.strip().split()` has the same fields as `s.split()`. */
  lemma SplitStrip(s: string)
    ensures Split(Strip(s)) == Split(s)
  {
    SplitTrimStart(s);
    SplitTrimEnd(TrimStart(s));
  }

  /** A run of non-whitespace from `i` up to whitespace or the end is one word. */
  lemma {:induction false} SkipWordRun(s: string, i: nat, e: nat)
    requires i <= e <= |s|
    requires forall k | i <= k < e :: !IsSpace(s[k])
    requires e == |s| || IsSpace(s[e])
    ensures SkipWord(s, i) == e
    decreases e - i
  {
    if i < e {
      SkipWordRun(s, i + 1, e);
    }
  }

  /** The fields of a field followed by a separated rest. */
  lemma SplitFieldThen(w: string, rest: string)
    requires IsField(w)
    requires rest == [] || IsSpace(rest[0])
    ensures Split(w + rest) == [w] + Split(rest)
  {
    var s := w + rest;
    forall k | 0 <= k < |w|
      ensures !IsSpace(s[k])
    {
      assert s[k] == w[k];
    }
    SkipWordRun(s, 0, |w|);
    assert s[..|w|] == w;
    assert s[|w|..] == rest;
  }

  /** `split()` inverts `" ".join` on a list of fields. */
  lemma {:induction false} SplitJoinSpace(ws: seq<string>)
    requires forall n | 0 <= n < |ws| :: IsField(ws[n])
    ensures Split(JoinSpace(ws)) == ws
    decreases |ws|
  {
    if |ws| == 1 {
      SplitFieldThen(ws[0], "");
      assert ws[0] + "" == ws[0];
    } else if |ws| > 1 {
      var tail := JoinSpace(ws[1..]);
      assert JoinSpace(ws) == ws[0] + (" " + tail);
      SplitFieldThen(ws[0], " " + tail);
      assert (" " + tail)[1..] == tail;
      SplitJoinSpace(ws[1..]);
      assert ws == [ws[0]] + ws[1..];
    }
  }
}

=== FILE: wrappers.dfy ===
/** Wrappers shared by the other modules: `Option` stands for Python's
    `None`-or-value returns, `Result` for a value or a raised exception, and
    `Result` supports `:-` so that an exception ends the computation. */
module Wrappers {

  datatype Option<+T> = None | Some(value: T)

  datatype Result<+R, +E> = Success(value: R) | Failure(error: E) {

    predicate IsFailure() {
      Failure?
    }

    function PropagateFailure<U>(): Result<U, E>
      requires Failure?
    {
      Failure(error)
    }

    function Extract(): R
      requires Success?
    {
      value
    }
  }
}
